=== FILE: README.md ===
# Tic-tac-toe game logic, modelled in Dafny

A model of the game logic of `tictactoe.py`, a pygame tic-tac-toe game
against a second player or against the computer at three difficulties,
together with proofs about it. The pygame screen, sounds and animation are
not part of the model; what remains is the board, the computer opponent and
the state machine of menus, clicks, placements and turns.

- `wrappers.dfy` (module `Wrappers`): `Option`, standing for Python's `None`
  next to a value.
- `board.dfy` (module `BoardModel`): the 3x3 board as a nine-cell sequence,
  row-major (`board[r][c]` is index `3 * r + c`). A cell is `Empty` (`" "`),
  `Mark(X)`/`Mark(O)`, or `Placing`, the sentinel of a piece still being
  animated in. It holds win detection (`check_win`), full-board detection
  (`check_draw`) and the list of empty cells that the Easy/Medium picker
  builds, all pure.
- `engine.dfy` (module `DecisionEngine`): what the computer opponent
  computes, as pure functions on boards:
  - `Value`, the uncached minimax value of a position;
  - `IsFirstBest`, the cell the root search keeps under its strict `>`
    tie-break;
  - `MediumChoice`, the win-then-block rule of the Medium level.
  It also holds the lemmas about them and the invariant of the root scan.
- `game.dfy` (module `GameFlow`): the module globals as the fields of one
  `Game` object, with the board a nine-cell array updated in place. The
  searches (`minimax`, `minimax_move`, `easy_medium_move`, `computer_move`)
  are methods that place, recurse or test, and undo on that array. The
  memo is a `map` field. The restart, the menu screens, the human click,
  the completion of a placement and the computer's turn are methods too.
  The search methods (`Minimax`, `ChildScores`, `PlayAndEvaluate`,
  `MinimaxMove`, `ScanRootRow`, `EasyMediumMove`, `WinningCell`,
  `ComputerMove`) and the methods that put the computer's choice in flight
  (`LaunchComputerMove`, `ComputerTurn`, `OpenForComputer` and
  `RestartGame`) are proved against the functions of `DecisionEngine`. The
  other methods state the new state directly, in terms of the old fields
  and the board functions of `BoardModel`.

The constructor establishes the invariant `Valid`, and every step of the
game flow (the restart, the menu screens, the click, the completion of a
placement, the computer's turn) requires and keeps it. `JudgeMove` starts
from the state in which a piece has just landed and re-establishes it;
`ClearBoard` and `ResetRound` are steps inside a restart, and the second
establishes it. The searches neither need nor state it: they leave the
board as they found it and change only the memo. Besides the shape of the
state (nine cells, the two roles, the `'placing'` cell matching the pending
piece), it ties the flag `game_over` to the board: a game that is not over
has no line for either player and, with nothing in flight, an empty cell
left; a game that is over never has lines for both players. So the game
never asks a click or the computer for a move on a finished board.

The memo of `minimax` is keyed by the board alone, although the same board
could be reached as a maximizing or a minimizing node. The model shows why
this is sound within one root search, which starts from an empty memo. The
search alternates roles with each ply, so a node is maximizing exactly when
its number of empty cells has the parity fixed at the root.
`MemoSound` states that every entry is that board's uncached value.
`Minimax` keeps it, and returns `Value` of the board it started from.

The Hard level has no preference for a quicker win. The root search keeps
the first cell, in row-major order, with the greatest minimax value, and
every forced win is worth the same 1. Take `X X _ / O O _ / _ _ _` with the
computer as O and O to move. Both the top-right cell (a forced win) and the
middle-right cell (an immediate win) are worth 1, so the game and the model
both play the top-right cell.

`-math.inf`, the initial best score of the root search, is modelled as -2.
`Value` is proved to lie in -1..1, so -2 is below every score.

## Model

| member | source | states |
|---|---|---|
| BoardModel.CheckWin | tictactoe.py:149-156 | a line is reported exactly when the player holds a whole row, column or diagonal, and the line reported is the first owned one in the scan order rows 0-2, columns 0-2, main diagonal `Diag(1)`, anti-diagonal `Diag(2)` |
| BoardModel.FirstFullRow | tictactoe.py:150-151 | the row loop returns the first row from `r` on that the player fills, and returns none only when no such row exists |
| BoardModel.FirstFullCol | tictactoe.py:152-153 | the column loop returns the first column from `c` on that the player fills, and returns none only when no such column exists |
| BoardModel.WinsIffOwnsSomeLine | tictactoe.py:149-156 | the win predicate used by the search and the game flow holds exactly when the player owns one of the eight lines |
| BoardModel.CheckDraw | tictactoe.py:181-182 | the full-board test (no cell is `" "`, so a `'placing'` cell counts as filled) holds exactly when the number of empty cells, counted over the board's multiset, is zero |
| BoardModel.EmptyCells | tictactoe.py:238 | every cell listed is on the board and empty |
| BoardModel.EmptyFromSpec | tictactoe.py:238 | the cells listed from flat index `k` on are empty, lie at `k` or later, include every empty cell from `k` on, and are in strictly increasing row-major order |
| BoardModel.EmptyCellsListsAll | tictactoe.py:238 | every empty cell is listed, in strictly increasing row-major order |
| BoardModel.NoNewLine | tictactoe.py:296-305 | writing anything but a player's own mark into a cell (a `'placing'` sentinel, the other player's piece) cannot give that player a line |
| BoardModel.NoMarkNoLine | tictactoe.py:186 | a board holding no mark of a player gives that player no line, so the fresh board has no winner |
| BoardModel.FullIffNoEmptyCells | tictactoe.py:239 | the empty-cell list is empty exactly when `check_draw` holds, so `if not empty_cells` and `check_draw()` agree |
| DecisionEngine.PlaceDecreasesEmpty | tictactoe.py:214 | placing a mark on an empty cell removes exactly one empty cell, which is why the search terminates |
| DecisionEngine.Max | tictactoe.py:218 | `max(scores)` is an element of the scores and no score exceeds it |
| DecisionEngine.Min | tictactoe.py:218 | `min(scores)` is an element of the scores and no score is below it |
| DecisionEngine.Value | tictactoe.py:202-220 | every minimax value lies in -1..1 |
| DecisionEngine.Scores | tictactoe.py:210-216 | every child score lies in -1..1, and the score list is empty exactly when the loop meets no empty cell |
| DecisionEngine.TerminalValue | tictactoe.py:206-208 | a position the computer has won is worth 1; one the human has won (and the computer has not) is worth -1; a full board with no line is worth 0 |
| DecisionEngine.ScoresCoverChildren | tictactoe.py:211-216 | the value of every child reached through an empty cell appears among the scores |
| DecisionEngine.ScoresAreChildValues | tictactoe.py:211-216 | every score is the value of some child reached through an empty cell |
| DecisionEngine.ValueIsBestChild | tictactoe.py:210-218 | at a position that is not over, no child beats the value for the side to move (maximizing: no child is above it; minimizing: none is below it), and some child attains it |
| DecisionEngine.ChildFlipsRole | tictactoe.py:214-215 | one ply flips the parity of the number of empty cells, and so the role, which makes a board-keyed memo sound |
| DecisionEngine.RootScoreOfEmpty | tictactoe.py:228-231 | the root score of an empty cell is the minimax value of the position after the computer plays it, with the human to move |
| DecisionEngine.RootScanStart | tictactoe.py:224-225 | before the scan there is no move and the best score is below every value |
| DecisionEngine.RootScanScore | tictactoe.py:228-234 | scoring an empty cell records its score; a score strictly above the best makes that cell the first best so far, any other score keeps the best |
| DecisionEngine.RootScanSkip | tictactoe.py:226-228 | passing an occupied cell keeps what the scan knows |
| DecisionEngine.RootScanDone | tictactoe.py:222-235 | after nine cells the scan has a move exactly when some cell is empty, and that move is the first empty cell whose score beats every earlier one and is no smaller than any later one |
| DecisionEngine.FirstBestUnique | tictactoe.py:232-234 | the strict `>` tie-break singles out at most one cell |
| DecisionEngine.FirstCompletingScan | tictactoe.py:242-247 | the Medium scan over the empty cells for one player finds the first row-major cell that completes a line for that player, and finds nothing exactly when no cell does |
| DecisionEngine.ScanFindsFirst | tictactoe.py:243-246 | a cell the scan returns completes a line, and no cell listed before it does |
| DecisionEngine.ScanMissesAll | tictactoe.py:243-247 | when the scan returns nothing, none of the cells it passed completes a line |
| DecisionEngine.NoneCompletes | tictactoe.py:238-247 | when no listed empty cell completes a line, no cell of the board does |
| DecisionEngine.FirstCompletingCell | tictactoe.py:243-246 | the first listed cell that completes a line is the first such cell of the board |
| DecisionEngine.MediumTakesWin | tictactoe.py:242-246 | the computer's own first winning cell meets the Medium rule |
| DecisionEngine.MediumTakesBlock | tictactoe.py:242-246 | when the computer cannot win, the human's first winning cell meets the Medium rule |
| DecisionEngine.MediumTakesAny | tictactoe.py:248 | when neither side can win at once, any pick meets the Medium rule |
| GameFlow.GridClickInRange | tictactoe.py:293-295 | every pointer strictly inside the grid's square maps, by floor division, to a cell of the board |
| GameFlow.Game.constructor | tictactoe.py:80-92 | the initial globals: empty board, zero scores, empty memo, X to move, menu, human X, computer O, Medium |
| GameFlow.Game.Minimax | tictactoe.py:202-220 | the memoized in-place search returns the uncached minimax value of the board it was called on, leaves the board as it found it, and keeps the memo sound |
| GameFlow.Game.ChildScores | tictactoe.py:210-216 | the nested loops collect the child values of the empty cells in row-major order and leave the board unchanged |
| GameFlow.Game.PlayAndEvaluate | tictactoe.py:213-216 | placing the mover's mark, recursing and resetting the cell yields that child's value and restores the board |
| GameFlow.Game.MinimaxMove | tictactoe.py:222-235 | the root search leaves the board unchanged and the memo sound, finds a move exactly when some cell is empty, and that move is the first best cell under the strict `>` tie-break |
| GameFlow.Game.ScanRootRow | tictactoe.py:227-234 | one row of the root scan keeps the board and a sound memo, and extends what the scan knows (scores seen, first best cell, best score) by that row's three cells |
| GameFlow.Game.EasyMediumMove | tictactoe.py:237-248 | no move exactly when no cell is empty, otherwise an empty cell; off Easy, the computer's first winning cell when there is one, else the human's first winning cell when there is one; board unchanged |
| GameFlow.Game.WinningCell | tictactoe.py:243-247 | the trial loop for one player returns what the first-completing scan over the empty cells returns, and leaves the board unchanged |
| GameFlow.Game.TrialWins | tictactoe.py:244-247 | a trial placement reports whether it completes a line for the player, and the cell is reset whatever the answer |
| GameFlow.Game.ComputerMove | tictactoe.py:250-251 | the board is unchanged; there is no move exactly when no cell is empty, otherwise an empty cell: the first best cell on Hard, the Medium rule on Medium; the memo is untouched off Hard |
| GameFlow.Game.RestartGame | tictactoe.py:184-200 | an empty board, X to move, nothing over, no winner or line, nothing in flight, scores and roles kept; a full reset (also the `r` key, line 277) returns to the menu, otherwise the mode is kept and, against the computer with the human as O, the computer's choice on the empty board is in flight on its one `'placing'` cell; the memo is empty afterwards unless that opening choice was a Hard search |
| GameFlow.Game.ResetRound | tictactoe.py:186-193 | every cell empty, an empty memo, X to move, nothing over, no winner or line, nothing in flight, and the invariant holds |
| GameFlow.Game.OpenForComputer | tictactoe.py:196-200 | on an empty board the computer's choice goes in flight: every other cell stays empty, the choice is the one launched from the empty board, and the memo is untouched off Hard |
| GameFlow.Game.ClearBoard | tictactoe.py:186 | every cell becomes `" "` |
| GameFlow.Game.Click | tictactoe.py:279-298 | a click goes to the one handler of the current screen. The menu moves to pvp or the difficulty screen by the first button hit. The difficulty screen records the first difficulty hit and opens the piece screen. The piece screen fixes the roles from the first piece hit and starts a fresh round against the computer with scores kept, X's piece in flight on an otherwise empty board when the human is O. In a game, an accepted click puts the mover's piece in flight on the clicked cell. In every case where a screen's buttons are missed or a click is not accepted, nothing changes; a click on the menu, on the difficulty screen or on the board never changes scores, cache, turn, outcome or roles |
| GameFlow.Game.ChooseMode | tictactoe.py:281-283 | on the menu the pvp button starts a two-player game, else the pvc button opens the difficulty screen; otherwise nothing changes |
| GameFlow.Game.ChooseDifficulty | tictactoe.py:284-287 | on the difficulty screen the first difficulty button hit is recorded and opens the piece screen; otherwise nothing changes |
| GameFlow.Game.ChoosePieceSide | tictactoe.py:288-291 | choosing X or O fixes the roles and restarts a game against the computer with scores kept; as O, the computer's first piece is in flight on an otherwise empty board; otherwise nothing changes |
| GameFlow.Game.HumanClick | tictactoe.py:292-298 | a click changes the board only in a running game with nothing in flight, on the human's turn (or in pvp), inside the grid, on an empty cell; then only that cell becomes `'placing'` with the mover's piece pending |
| GameFlow.Game.PutInFlight | tictactoe.py:296-298 | exactly the chosen cell becomes `'placing'` and the player's piece is pending there |
| GameFlow.Game.FinishPlacement | tictactoe.py:301-318 | the pending piece is written into its cell and nothing stays in flight; then exactly one outcome: a win sets the winner, ends the game, bumps that player's count and records the line; else a full board ends the game and bumps the draw count; else the turn passes |
| GameFlow.Game.JudgeMove | tictactoe.py:306-317 | after a piece lands in a running game (nothing in flight, no `'placing'` cell, no line for the other player), exactly one of win, draw or turn change happens, only that outcome's counter goes up, and the invariant holds again |
| GameFlow.Game.ComputerTurn | tictactoe.py:323-328 | when the computer is due, a piece of the computer is always in flight afterwards, on the cell it picks, which is then `'placing'`; otherwise board, pending piece and memo are unchanged |
| GameFlow.Game.LaunchComputerMove | tictactoe.py:324-328 | the computer's piece is pending on the one cell that became `'placing'`, an empty cell that is the first best on Hard and meets the Medium rule on Medium. The source's `r is None` case does not arise: under the requires (a game not over, nothing in flight) the invariant guarantees an empty cell |

The rows above use these definitions:
- `BoardModel.Other` is the turn toggle at tictactoe.py:317.
- `BoardModel.EmptyFrom` builds the empty-cell list of tictactoe.py:238 from a given cell on.
- `BoardModel.EmptyCount` is the number of empty cells, the measure by which the search terminates.
- `DecisionEngine.ChildValue` is the value of the child that `minimax` reaches at tictactoe.py:213-215.
- `DecisionEngine.RootScores` holds the root score of each cell, as scored at tictactoe.py:228-231.
- `DecisionEngine.FirstCompletingFrom` is the Medium trial loop of tictactoe.py:243-246. `WinningCell` is proved to compute it.
- `GameFlow.InGrid` and `GameFlow.CellAt` are the grid test and the click-to-cell arithmetic of tictactoe.py:293-294.
- `GameFlow.Game.AcceptsClick` is the guard of tictactoe.py:292-295.
- `GameFlow.Game.ComputerDue` is the guard of tictactoe.py:323.
- `GameFlow.Game.CurrentStanding` collects the scores, cache, turn, outcome and roles, the globals that `Click` keeps outside the piece screen.
- `GameFlow.Game.Valid` and `GameFlow.Game.OutcomeAgrees` are the invariant described above.
- `GameFlow.Game.Landed` is the state in which tictactoe.py:305-317 judge a piece that has just landed.
- `GameFlow.AddWin` and `GameFlow.AddDraw` are the score updates at tictactoe.py:309 and 314.

## Left out

- Rendering, fonts, the window and the `draw_*` functions: screen output only.
- Sound generation and playback: floating point and foreign libraries. Playing a sound is a no-op here.
- The animation progress of a piece and of the win line, which are floats. A placement is finished by the abstract `FinishPlacement` step. The win line is only recorded as `winLine`.
- The `while True` event loop, event polling and quitting. Each event handler and update step is a method; the order in which one frame runs them is not modelled.
- Button hit tests (`collidepoint`). A click on a menu screen is given as the set of buttons whose rectangle contains the pointer. The source's `if`/`elif` priority among them is kept.
- `random.choice`. The Easy pick and the Medium fallback return some cell of the empty-cell list, chosen nondeterministically. Uniformity is not modelled.
- `restart_game` binds a fresh list to `board`. The model empties the cells of the one board array in place. Nothing else holds the old list, so no caller can tell the two apart.
- The Hard level's game-theoretic quality is not modelled: it never losing, or it winning whenever it can, is not proved. The model proves only that it plays the first best cell by the minimax value.
- Several source blocks are split into helper methods, each with its own contract, to keep each proof small. These are the nested loops of `minimax`, one row of the root scan, one trial of the Medium scan, the placement of a piece in flight, the judgement after a piece lands, and the two parts of a restart.
- GameFlow.Game.ChoosePieceSide: when the human picks O it states only that the computer's first piece is in flight on an otherwise empty board, not which cell; `RestartGame`, which it calls, states the choice.
- GameFlow.Game.ComputerMove: on Easy it states only that the move is an empty cell, as the source promises no more.

=== FILE: board.dfy ===
/** The board of the game: a 3x3 grid of cells, stored row-major, so that the
    cell `board[r][c]` of the game is index `3 * r + c` here. Win and draw
    detection are pure scans over it. */
module BoardModel {
  import opened Wrappers

  datatype Player = X | O

  /** The other player, as the turn passes from one to the other. */
  function Other(p: Player): (q: Player)
    ensures q != p
  {
    if p == X then O else X
  }

  /** A cell holds `" "`, a player's mark, or the sentinel `'placing'` that
      marks a cell whose piece is still being animated in. */
  datatype Cell = Empty | Mark(player: Player) | Placing

  type Board = b: seq<Cell> | |b| == 9
    witness [Empty, Empty, Empty, Empty, Empty, Empty, Empty, Empty, Empty]

  const EmptyBoard: Board := [Empty, Empty, Empty, Empty, Empty, Empty, Empty, Empty, Empty]

  /** A (row, column) coordinate pair, as the game passes them around. */
  datatype Pos = Pos(r: int, c: int)

  predicate InRange(p: Pos) {
    0 <= p.r < 3 && 0 <= p.c < 3
  }

  function Index(p: Pos): nat
    requires InRange(p)
  {
    3 * p.r + p.c
  }

  /** The coordinate pair of a flat index; inverse of Index. */
  function PosOf(k: nat): (p: Pos)
    requires k < 9
    ensures InRange(p) && Index(p) == k
  {
    Pos(k / 3, k % 3)
  }

  // ---------------------------------------------------------------------
  // Lines and wins
  // ---------------------------------------------------------------------

  /** The tag a win reports: `("row", r)`, `("col", c)`, `("diag", 1)` for
      the main diagonal and `("diag", 2)` for the anti-diagonal. */
  datatype WinLine = Row(r: int) | Col(c: int) | Diag(n: int)

  /** The eight lines, in the order in which a win is looked for. */
  const Lines: seq<WinLine> :=
    [Row(0), Row(1), Row(2), Col(0), Col(1), Col(2), Diag(1), Diag(2)]

  /** The three cells of a line, as flat indices. */
  function LineCells(w: WinLine): (cells: (nat, nat, nat))
    requires w in Lines
    ensures cells.0 < 9 && cells.1 < 9 && cells.2 < 9
  {
    match w
    case Row(r) => (3 * r, 3 * r + 1, 3 * r + 2)
    case Col(c) => (c, 3 + c, 6 + c)
    case Diag(n) => if n == 1 then (0, 4, 8) else (2, 4, 6)
  }

  /** Player `p` holds every cell of line `w`. */
  predicate Owns(b: Board, p: Player, w: WinLine)
    requires w in Lines
  {
    var cells := LineCells(w);
    b[cells.0] == Mark(p) && b[cells.1] == Mark(p) && b[cells.2] == Mark(p)
  }

  /** Player `p` owns one of the lines of `Lines` at position j or later. */
  predicate OwnsLineFrom(b: Board, p: Player, j: nat)
    decreases |Lines| - j
  {
    j < |Lines| && (Owns(b, p, Lines[j]) || OwnsLineFrom(b, p, j + 1))
  }

  /** Player `p` holds some whole row, column or diagonal. */
  predicate Wins(b: Board, p: Player) {
    OwnsLineFrom(b, p, 0)
  }

  lemma {:induction false} OwnsLineFromIff(b: Board, p: Player, j: nat)
    ensures OwnsLineFrom(b, p, j) <==> exists i :: j <= i < |Lines| && Owns(b, p, Lines[i])
    decreases |Lines| - j
  {
    if j < |Lines| {
      OwnsLineFromIff(b, p, j + 1);
    }
  }

  /** A win is the ownership of some line of `Lines`. */
  lemma WinsIffOwnsSomeLine(b: Board, p: Player)
    ensures Wins(b, p) <==> exists j :: 0 <= j < |Lines| && Owns(b, p, Lines[j])
  {
    OwnsLineFromIff(b, p, 0);
  }

  /** Writing anything but `q`'s mark into a cell cannot give `q` a line. */
  lemma NoNewLine(b: Board, k: nat, c: Cell, q: Player)
    requires k < 9 && c != Mark(q) && !Wins(b, q)
    ensures !Wins(b[k := c], q)
  {
    WinsIffOwnsSomeLine(b, q);
    WinsIffOwnsSomeLine(b[k := c], q);
    forall j | 0 <= j < |Lines|
      ensures !Owns(b[k := c], q, Lines[j])
    {
      assert !Owns(b, q, Lines[j]);
    }
  }

  /** A board holding no mark of `q` gives `q` no line. */
  lemma NoMarkNoLine(b: Board, q: Player)
    requires forall i :: 0 <= i < 9 ==> b[i] != Mark(q)
    ensures !Wins(b, q)
  {
    WinsIffOwnsSomeLine(b, q);
  }

  /** The scan over rows r..2: the first row `p` fills. */
  function FirstFullRow(b: Board, p: Player, r: nat): (w: Option<WinLine>)
    requires r <= 3
    ensures w.Some? ==>
      w.value.Row? && r <= w.value.r < 3 && Owns(b, p, w.value) &&
      forall j :: r <= j < w.value.r ==> !Owns(b, p, Row(j))
    ensures w.None? ==> forall j :: r <= j < 3 ==> !Owns(b, p, Row(j))
    decreases 3 - r
  {
    if r == 3 then None
    else if Owns(b, p, Row(r)) then Some(Row(r))
    else FirstFullRow(b, p, r + 1)
  }

  /** The scan over columns c..2: the first column `p` fills. */
  function FirstFullCol(b: Board, p: Player, c: nat): (w: Option<WinLine>)
    requires c <= 3
    ensures w.Some? ==>
      w.value.Col? && c <= w.value.c < 3 && Owns(b, p, w.value) &&
      forall j :: c <= j < w.value.c ==> !Owns(b, p, Col(j))
    ensures w.None? ==> forall j :: c <= j < 3 ==> !Owns(b, p, Col(j))
    decreases 3 - c
  {
    if c == 3 then None
    else if Owns(b, p, Col(c)) then Some(Col(c))
    else FirstFullCol(b, p, c + 1)
  }

  /** The line `w` is the first line of the scan order that `p` owns. */
  predicate FirstOwned(b: Board, p: Player, w: WinLine) {
    exists j :: 0 <= j < |Lines| && Lines[j] == w && Owns(b, p, Lines[j]) &&
      forall i :: 0 <= i < j ==> !Owns(b, p, Lines[i])
  }

  /** Win detection: a line is reported iff `p` owns some line, and the line
      reported is the first owned one in the scan order of `Lines`. */
  function CheckWin(b: Board, p: Player): (w: Option<WinLine>)
    ensures w.Some? <==> Wins(b, p)
    ensures w.Some? ==> FirstOwned(b, p, w.value)
  {
    WinsIffOwnsSomeLine(b, p);
    var row := FirstFullRow(b, p, 0);
    if row.Some? then
      assert Lines[row.value.r] == row.value;
      row
    else
      assert forall i :: 0 <= i < 3 ==> Lines[i] == Row(i);
      var col := FirstFullCol(b, p, 0);
      if col.Some? then
        assert Lines[3 + col.value.c] == col.value;
        assert forall i :: 3 <= i < 6 ==> Lines[i] == Col(i - 3);
        col
      else
        assert forall i :: 3 <= i < 6 ==> Lines[i] == Col(i - 3);
        if Owns(b, p, Diag(1)) then
          assert Owns(b, p, Lines[6]);
          Some(Diag(1))
        else if Owns(b, p, Diag(2)) then
          assert Owns(b, p, Lines[7]);
          Some(Diag(2))
        else
          None
  }

  // ---------------------------------------------------------------------
  // Empty cells and draws
  // ---------------------------------------------------------------------

  /** The empty cells at flat index k or later, in row-major order. */
  function EmptyFrom(b: Board, k: nat): seq<Pos>
    requires k <= 9
    decreases 9 - k
  {
    if k == 9 then []
    else if b[k] == Empty then [PosOf(k)] + EmptyFrom(b, k + 1)
    else EmptyFrom(b, k + 1)
  }

  /** The cells listed from index k on are empty cells at k or later, every
      such cell is listed, and the list is strictly increasing. */
  lemma {:induction false} EmptyFromSpec(b: Board, k: nat)
    requires k <= 9
    ensures var cells := EmptyFrom(b, k);
      (forall j :: 0 <= j < |cells| ==>
         InRange(cells[j]) && k <= Index(cells[j]) && b[Index(cells[j])] == Empty) &&
      (forall i :: k <= i < 9 && b[i] == Empty ==> PosOf(i) in cells) &&
      (forall i, j :: 0 <= i < j < |cells| ==> Index(cells[i]) < Index(cells[j]))
    decreases 9 - k
  {
    if k < 9 {
      EmptyFromSpec(b, k + 1);
    }
  }

  /** Every empty cell, in row-major order: each listed cell is empty. */
  function EmptyCells(b: Board): (cells: seq<Pos>)
    ensures forall j :: 0 <= j < |cells| ==> InRange(cells[j]) && b[Index(cells[j])] == Empty
  {
    EmptyFromSpec(b, 0);
    EmptyFrom(b, 0)
  }

  /** Each empty cell is listed, and the list is strictly increasing. */
  lemma EmptyCellsListsAll(b: Board)
    ensures forall i :: 0 <= i < 9 && b[i] == Empty ==> PosOf(i) in EmptyCells(b)
    ensures forall i, j :: 0 <= i < j < |EmptyCells(b)| ==>
      Index(EmptyCells(b)[i]) < Index(EmptyCells(b)[j])
  {
    EmptyFromSpec(b, 0);
  }

  /** Number of empty cells. */
  function EmptyCount(b: Board): nat {
    multiset(b)[Empty]
  }

  /** The board is full when no cell is empty; a `Placing` cell counts as
      filled. A full board is one with no empty cell left to count. */
  function CheckDraw(b: Board): (full: bool)
    ensures full <==> EmptyCount(b) == 0
  {
    forall i :: 0 <= i < 9 ==> b[i] != Empty
  }

  /** The board is full exactly when the list of empty cells is empty. */
  lemma FullIffNoEmptyCells(b: Board)
    ensures CheckDraw(b) <==> EmptyCells(b) == []
  {
    if !CheckDraw(b) {
      EmptyCellsListsAll(b);
      var k :| 0 <= k < 9 && b[k] == Empty;
      assert PosOf(k) in EmptyCells(b);
    }
  }

  /** Placing `p` on the empty cell k gives `p` a line. */
  predicate Completes(b: Board, p: Player, k: nat)
    requires k < 9
  {
    b[k] == Empty && Wins(b[k := Mark(p)], p)
  }
}

=== FILE: engine.dfy ===
/** What the computer opponent computes, stated as pure functions on boards:
    the minimax value of a position, the move the root search picks, and
    the one-ply tactics of the Medium level. The imperative search in
    module GameFlow is proved to compute these. */
module DecisionEngine {
  import opened Wrappers
  import opened BoardModel

  /** The number of empty cells drops by one with every ply. */
  lemma PlaceDecreasesEmpty(b: Board, k: nat, c: Cell)
    requires k < 9 && b[k] == Empty && c != Empty
    ensures EmptyCount(b[k := c]) == EmptyCount(b) - 1
  {
    assert multiset(b[k := c]) == multiset(b) - multiset{Empty} + multiset{c};
  }

  /** Who moves at a node: the computer when maximizing, else the human. */
  function Mover(maximizing: bool, computer: Player, human: Player): Player {
    if maximizing then computer else human
  }

  /** The position after the mover of a node plays the empty cell k. */
  function Child(b: Board, k: nat, maximizing: bool, computer: Player, human: Player): Board
    requires k < 9
  {
    b[k := Mark(Mover(maximizing, computer, human))]
  }

  function Max(s: seq<int>): (m: int)
    requires |s| > 0
    ensures m in s && forall i :: 0 <= i < |s| ==> s[i] <= m
  {
    if |s| == 1 then s[0]
    else
      var rest := Max(s[1..]);
      assert rest in s;
      if s[0] >= rest then s[0] else rest
  }

  function Min(s: seq<int>): (m: int)
    requires |s| > 0
    ensures m in s && forall i :: 0 <= i < |s| ==> m <= s[i]
  {
    if |s| == 1 then s[0]
    else
      var rest := Min(s[1..]);
      assert rest in s;
      if s[0] <= rest then s[0] else rest
  }

  /** The minimax value of a position, without any cache: 1 when the
      computer owns a line, -1 when the human does, 0 on a full board, and
      otherwise the largest (maximizing) or smallest (minimizing) value of
      the children, the role alternating with each ply. */
  function Value(b: Board, maximizing: bool, computer: Player, human: Player): (v: int)
    ensures -1 <= v <= 1
    decreases EmptyCount(b), 2, 0
  {
    if Wins(b, computer) then 1
    else if Wins(b, human) then -1
    else if CheckDraw(b) then 0
    else
      var scores := Scores(b, maximizing, computer, human, 9);
      if maximizing then Max(scores) else Min(scores)
  }

  /** The values of the children reached through the empty cells below
      flat index k, in row-major order. */
  function Scores(b: Board, maximizing: bool, computer: Player, human: Player, k: nat): (s: seq<int>)
    requires k <= 9
    ensures forall i :: 0 <= i < |s| ==> -1 <= s[i] <= 1
    ensures s == [] <==> forall i :: 0 <= i < k ==> b[i] != Empty
    decreases EmptyCount(b), 1, k
  {
    if k == 0 then []
    else
      var earlier := Scores(b, maximizing, computer, human, k - 1);
      if b[k - 1] == Empty then earlier + [ChildValue(b, k - 1, maximizing, computer, human)]
      else earlier
  }

  /** The value the child through the empty cell i contributes to node b. */
  function ChildValue(b: Board, i: nat, maximizing: bool, computer: Player, human: Player): (v: int)
    requires i < 9 && b[i] == Empty
    ensures -1 <= v <= 1
    decreases EmptyCount(b), 0, 0
  {
    PlaceDecreasesEmpty(b, i, Mark(Mover(maximizing, computer, human)));
    Value(Child(b, i, maximizing, computer, human), !maximizing, computer, human)
  }

  /** A position where the game is over: someone owns a line, or the board
      has no empty cell. */
  predicate Terminal(b: Board, computer: Player, human: Player) {
    Wins(b, computer) || Wins(b, human) || CheckDraw(b)
  }

  lemma ScoresStep(b: Board, maximizing: bool, computer: Player, human: Player, k: nat)
    requires 0 < k <= 9
    ensures Scores(b, maximizing, computer, human, k) ==
      Scores(b, maximizing, computer, human, k - 1) +
      (if b[k - 1] == Empty then [ChildValue(b, k - 1, maximizing, computer, human)] else [])
  {
  }

  /** Every empty cell below k contributes its child's value. */
  lemma {:induction false} ScoresCoverChildren(b: Board, maximizing: bool, computer: Player, human: Player, k: nat)
    requires k <= 9
    ensures forall i :: 0 <= i < k && b[i] == Empty ==>
      ChildValue(b, i, maximizing, computer, human) in Scores(b, maximizing, computer, human, k)
  {
    if k > 0 {
      ScoresCoverChildren(b, maximizing, computer, human, k - 1);
      ScoresStep(b, maximizing, computer, human, k);
      var prev := Scores(b, maximizing, computer, human, k - 1);
      var s := Scores(b, maximizing, computer, human, k);
      forall i | 0 <= i < k && b[i] == Empty
        ensures ChildValue(b, i, maximizing, computer, human) in s
      {
        if i < k - 1 {
          assert ChildValue(b, i, maximizing, computer, human) in prev;
        }
      }
    }
  }

  /** Every score below k is the value of a child through an empty cell. */
  lemma {:induction false} ScoresAreChildValues(b: Board, maximizing: bool, computer: Player, human: Player, k: nat)
    requires k <= 9
    ensures forall v :: v in Scores(b, maximizing, computer, human, k) ==>
      exists i :: 0 <= i < k && b[i] == Empty && v == ChildValue(b, i, maximizing, computer, human)
  {
    if k > 0 {
      ScoresAreChildValues(b, maximizing, computer, human, k - 1);
      ScoresStep(b, maximizing, computer, human, k);
      var prev := Scores(b, maximizing, computer, human, k - 1);
      var s := Scores(b, maximizing, computer, human, k);
      forall v | v in s
        ensures exists i :: 0 <= i < k && b[i] == Empty && v == ChildValue(b, i, maximizing, computer, human)
      {
        if v !in prev {
          assert b[k - 1] == Empty && v == ChildValue(b, k - 1, maximizing, computer, human);
        }
      }
    }
  }

  /** The value of a finished position. */
  lemma TerminalValue(b: Board, maximizing: bool, computer: Player, human: Player)
    ensures Wins(b, computer) ==> Value(b, maximizing, computer, human) == 1
    ensures !Wins(b, computer) && Wins(b, human) ==> Value(b, maximizing, computer, human) == -1
    ensures !Wins(b, computer) && !Wins(b, human) && CheckDraw(b) ==>
      Value(b, maximizing, computer, human) == 0
  {
  }

  /** At a position that is not over, the value is the best child value for
      the side to move: no child beats it, and some child reaches it. */
  lemma ValueIsBestChild(b: Board, maximizing: bool, computer: Player, human: Player)
    requires !Terminal(b, computer, human)
    ensures forall i :: 0 <= i < 9 && b[i] == Empty ==>
      if maximizing then ChildValue(b, i, maximizing, computer, human) <= Value(b, maximizing, computer, human)
      else Value(b, maximizing, computer, human) <= ChildValue(b, i, maximizing, computer, human)
    ensures exists i ::
      0 <= i < 9 && b[i] == Empty &&
      ChildValue(b, i, maximizing, computer, human) == Value(b, maximizing, computer, human)
  {
    ScoresCoverChildren(b, maximizing, computer, human, 9);
    ScoresAreChildValues(b, maximizing, computer, human, 9);
    var scores := Scores(b, maximizing, computer, human, 9);
    var v := Value(b, maximizing, computer, human);
    assert v == (if maximizing then Max(scores) else Min(scores));
    assert v in scores;
  }

  // ---------------------------------------------------------------------
  // The memo
  // ---------------------------------------------------------------------

  /** Within one root search, a node is maximizing exactly when its number of
      empty cells has the parity fixed by the root; so a cache keyed by the
      board alone is sound when every entry is that board's value. */
  ghost predicate MemoSound(memo: map<Board, int>, computer: Player, human: Player, parity: nat) {
    parity < 2 &&
    forall key :: key in memo ==>
      memo[key] == Value(key, EmptyCount(key) % 2 == parity, computer, human)
  }

  /** One ply flips the parity, and so the role, of a node. */
  lemma ChildFlipsRole(b: Board, k: nat, maximizing: bool, computer: Player, human: Player, parity: nat)
    requires k < 9 && b[k] == Empty && parity < 2
    requires maximizing == (EmptyCount(b) % 2 == parity)
    ensures !maximizing == (EmptyCount(Child(b, k, maximizing, computer, human)) % 2 == parity)
    ensures EmptyCount(Child(b, k, maximizing, computer, human)) < EmptyCount(b)
  {
    PlaceDecreasesEmpty(b, k, Mark(Mover(maximizing, computer, human)));
  }

  // ---------------------------------------------------------------------
  // The root move
  // ---------------------------------------------------------------------

  /** The root scores of all nine cells: the value after the computer plays
      the cell. Only those of empty cells are ever looked at. */
  function RootScores(b: Board, computer: Player, human: Player): (scores: seq<int>)
    ensures |scores| == 9
  {
    seq(9, k requires 0 <= k < 9 => if b[k] == Empty then ChildValue(b, k, true, computer, human) else 0)
  }

  /** The root score of an empty cell is the value of the child the
      computer's mark there leads to, with the human to move. */
  lemma RootScoreOfEmpty(b: Board, computer: Player, human: Player, k: nat)
    requires k < 9 && b[k] == Empty
    ensures RootScores(b, computer, human)[k] == Value(Child(b, k, true, computer, human), false, computer, human)
  {
  }

  /** Cell i is the first, in row-major order, of the empty cells below k
      with the greatest score. */
  predicate FirstBestBelow(b: Board, scores: seq<int>, i: nat, k: nat)
    requires |scores| == 9 && k <= 9
  {
    i < k && b[i] == Empty &&
    (forall j :: 0 <= j < i && b[j] == Empty ==> scores[j] < scores[i]) &&
    (forall j :: i < j < k && b[j] == Empty ==> scores[j] <= scores[i])
  }

  /** What the root scan knows once it has passed the cells below flat
      index n: `seen` holds the root score of each empty one, and `best`
      is either unset, with none of them empty and `bestScore` still at -2
      (below every value), or their first best cell, with `bestScore` its
      score. */
  ghost predicate RootScanned(b: Board, computer: Player, human: Player, seen: seq<int>, n: nat,
                              best: Option<Pos>, bestScore: int)
  {
    |seen| == 9 && n <= 9 &&
    (forall k {:trigger seen[k]} :: 0 <= k < n && b[k] == Empty ==>
       seen[k] == RootScores(b, computer, human)[k]) &&
    (best.None? ==> bestScore == -2 && forall j :: 0 <= j < n ==> b[j] != Empty) &&
    (best.Some? ==>
       InRange(best.value) && FirstBestBelow(b, seen, Index(best.value), n) &&
       bestScore == seen[Index(best.value)])
  }

  /** Before the scan nothing is known and nothing is best. */
  lemma RootScanStart(b: Board, computer: Player, human: Player, seen: seq<int>)
    requires |seen| == 9
    ensures RootScanned(b, computer, human, seen, 0, None, -2)
  {
  }

  /** Scoring the empty cell n: a score strictly above the best so far
      makes the cell the new best, any other score leaves the best as it
      is; either way the cell's score is recorded. */
  lemma RootScanScore(b: Board, computer: Player, human: Player, seen: seq<int>, n: nat,
                      best: Option<Pos>, bestScore: int, score: int, pos: Pos)
    requires RootScanned(b, computer, human, seen, n, best, bestScore)
    requires n < 9 && b[n] == Empty && score == ChildValue(b, n, true, computer, human)
    requires InRange(pos) && Index(pos) == n
    ensures score > bestScore ==>
      RootScanned(b, computer, human, seen[n := score], n + 1, Some(pos), score)
    ensures score <= bestScore ==>
      RootScanned(b, computer, human, seen[n := score], n + 1, best, bestScore)
  {
    RootScoreOfEmpty(b, computer, human, n);
    var seen' := seen[n := score];
    if score > bestScore {
      assert FirstBestBelow(b, seen', n, n + 1);
    } else {
      assert FirstBestBelow(b, seen', Index(best.value), n + 1);
    }
  }

  /** Passing over the occupied cell n changes nothing. */
  lemma RootScanSkip(b: Board, computer: Player, human: Player, seen: seq<int>, n: nat,
                     best: Option<Pos>, bestScore: int)
    requires RootScanned(b, computer, human, seen, n, best, bestScore)
    requires n < 9 && b[n] != Empty
    ensures RootScanned(b, computer, human, seen, n + 1, best, bestScore)
  {
    if best.Some? {
      assert FirstBestBelow(b, seen, Index(best.value), n + 1);
    }
  }

  /** After all nine cells, the scan has found a cell exactly when the board
      has an empty cell, and the cell it found is the first best one. */
  lemma RootScanDone(b: Board, computer: Player, human: Player, seen: seq<int>,
                     best: Option<Pos>, bestScore: int)
    requires RootScanned(b, computer, human, seen, 9, best, bestScore)
    ensures best.None? <==> EmptyCells(b) == []
    ensures best.Some? ==> IsFirstBest(b, computer, human, Index(best.value))
  {
    FullIffNoEmptyCells(b);
    if best.Some? {
      assert b[Index(best.value)] == Empty;
    }
  }

  /** At most one cell is the first best. */
  lemma FirstBestUnique(b: Board, scores: seq<int>, i: nat, j: nat)
    requires |scores| == 9
    requires FirstBestBelow(b, scores, i, 9) && FirstBestBelow(b, scores, j, 9)
    ensures i == j
  {
  }

  /** The move of the root search: the first empty cell, in row-major order,
      whose root score is strictly greater than that of every earlier empty
      cell and no smaller than that of any later one. */
  ghost predicate IsFirstBest(b: Board, computer: Player, human: Player, i: nat) {
    FirstBestBelow(b, RootScores(b, computer, human), i, 9)
  }

  // ---------------------------------------------------------------------
  // Medium tactics
  // ---------------------------------------------------------------------

  /** Some empty cell would give `p` a line. */
  predicate CanComplete(b: Board, p: Player) {
    exists k :: 0 <= k < 9 && Completes(b, p, k)
  }

  /** `pos` is the first cell, in row-major order, that gives `p` a line. */
  predicate IsFirstCompleting(b: Board, p: Player, pos: Pos) {
    InRange(pos) && Completes(b, p, Index(pos)) &&
    forall k :: 0 <= k < Index(pos) ==> !Completes(b, p, k)
  }

  /** The Medium scan over the listed cells from position `j` on: the first
      cell that would give `p` a line, or none. */
  function FirstCompletingFrom(b: Board, p: Player, cells: seq<Pos>, j: nat): Option<Pos>
    requires j <= |cells| && forall m :: 0 <= m < |cells| ==> InRange(cells[m])
    decreases |cells| - j
  {
    if j == |cells| then None
    else if Completes(b, p, Index(cells[j])) then Some(cells[j])
    else FirstCompletingFrom(b, p, cells, j + 1)
  }

  /** Scanning the empty cells in row-major order finds exactly the first
      completing cell of the board, and finds nothing exactly when `p` has
      no completing cell at all. */
  lemma FirstCompletingScan(b: Board, p: Player)
    ensures var found := FirstCompletingFrom(b, p, EmptyCells(b), 0);
      (found.Some? ==> found.value in EmptyCells(b) && IsFirstCompleting(b, p, found.value)) &&
      (found.None? <==> !CanComplete(b, p))
  {
    var empties := EmptyCells(b);
    var found := FirstCompletingFrom(b, p, empties, 0);
    if found.Some? {
      ScanFindsFirst(b, p, empties, 0);
      var m :| 0 <= m < |empties| && empties[m] == found.value &&
        Completes(b, p, Index(empties[m])) &&
        forall m' :: 0 <= m' < m ==> !Completes(b, p, Index(empties[m']));
      FirstCompletingCell(b, p, empties, m);
      assert CanComplete(b, p) by {
        assert Completes(b, p, Index(found.value));
      }
    } else {
      ScanMissesAll(b, p, empties, 0);
      NoneCompletes(b, p, empties);
    }
  }

  /** What the scan from position `j` finds is some listed cell at or after
      `j` that completes a line, with no listed cell before it doing so,
      when no cell listed before `j` does. */
  lemma {:induction false} ScanFindsFirst(b: Board, p: Player, cells: seq<Pos>, j: nat)
    requires j <= |cells| && forall m :: 0 <= m < |cells| ==> InRange(cells[m])
    requires forall m :: 0 <= m < j ==> !Completes(b, p, Index(cells[m]))
    requires FirstCompletingFrom(b, p, cells, j).Some?
    ensures
      exists m :: j <= m < |cells| && cells[m] == FirstCompletingFrom(b, p, cells, j).value &&
        Completes(b, p, Index(cells[m])) &&
        forall m' :: 0 <= m' < m ==> !Completes(b, p, Index(cells[m']))
    decreases |cells| - j
  {
    if !Completes(b, p, Index(cells[j])) {
      assert forall m :: 0 <= m < j + 1 ==> !Completes(b, p, Index(cells[m]));
      ScanFindsFirst(b, p, cells, j + 1);
    }
  }

  /** A scan from position `j` that finds nothing passed over listed cells
      none of which completes a line. */
  lemma {:induction false} ScanMissesAll(b: Board, p: Player, cells: seq<Pos>, j: nat)
    requires j <= |cells| && forall m :: 0 <= m < |cells| ==> InRange(cells[m])
    requires FirstCompletingFrom(b, p, cells, j).None?
    ensures forall m :: j <= m < |cells| ==> !Completes(b, p, Index(cells[m]))
    decreases |cells| - j
  {
    if j < |cells| {
      ScanMissesAll(b, p, cells, j + 1);
    }
  }

  /** When no empty cell completes a line, no cell at all does. */
  lemma NoneCompletes(b: Board, p: Player, empties: seq<Pos>)
    requires empties == EmptyCells(b)
    requires forall m :: 0 <= m < |empties| ==> !Completes(b, p, Index(empties[m]))
    ensures !CanComplete(b, p)
  {
    EmptyCellsListsAll(b);
    forall k | 0 <= k < 9 && b[k] == Empty
      ensures !Completes(b, p, k)
    {
      assert PosOf(k) in empties;
      var m :| 0 <= m < |empties| && empties[m] == PosOf(k);
      assert Index(empties[m]) == k;
    }
  }

  /** The first cell of the list that completes a line for `p`, after none
      of the earlier ones did, is the first completing cell of the board. */
  lemma FirstCompletingCell(b: Board, p: Player, empties: seq<Pos>, j: nat)
    requires empties == EmptyCells(b) && j < |empties|
    requires forall m :: 0 <= m < j ==> !Completes(b, p, Index(empties[m]))
    requires Completes(b, p, Index(empties[j]))
    ensures IsFirstCompleting(b, p, empties[j])
  {
    EmptyCellsListsAll(b);
    forall k | 0 <= k < Index(empties[j]) && b[k] == Empty
      ensures !Completes(b, p, k)
    {
      assert PosOf(k) in empties;
      var m :| 0 <= m < |empties| && empties[m] == PosOf(k);
      assert Index(empties[m]) == k;
      assert m < j;
    }
  }

  /** What the Medium level promises: a win for the computer whenever one
      exists, before any block; otherwise a block of the human's first
      winning cell, if there is one. */
  predicate MediumChoice(b: Board, computer: Player, human: Player, move: Option<Pos>) {
    (CanComplete(b, computer) ==> move.Some? && IsFirstCompleting(b, computer, move.value)) &&
    (!CanComplete(b, computer) && CanComplete(b, human) ==>
       move.Some? && IsFirstCompleting(b, human, move.value))
  }

  /** The computer's own first winning cell is the Medium choice. */
  lemma MediumTakesWin(b: Board, computer: Player, human: Player, cell: Pos)
    requires IsFirstCompleting(b, computer, cell)
    ensures MediumChoice(b, computer, human, Some(cell))
  {
    assert Completes(b, computer, Index(cell));
  }

  /** With no win for the computer, the human's first winning cell is the
      Medium choice. */
  lemma MediumTakesBlock(b: Board, computer: Player, human: Player, cell: Pos)
    requires !CanComplete(b, computer) && IsFirstCompleting(b, human, cell)
    ensures MediumChoice(b, computer, human, Some(cell))
  {
  }

  /** With no winning cell for either side, any choice is a Medium choice. */
  lemma MediumTakesAny(b: Board, computer: Player, human: Player, move: Option<Pos>)
    requires !CanComplete(b, computer) && !CanComplete(b, human)
    ensures MediumChoice(b, computer, human, move)
  {
  }
}

=== FILE: game.dfy ===
/** The game session: the globals of the game (board, scores, turn, mode,
    roles, difficulty, the piece being placed) held by one object, with the
    computer opponent's searches, the restart, the menu screens, the human
    click, the completion of a placement and the computer's turn as methods
    that update it in place. */
module GameFlow {
  import opened Wrappers
  import opened BoardModel
  import opened DecisionEngine

  /** The screen or kind of game: "menu", "difficulty", "choose_piece",
      "pvp", "pvc". */
  datatype Mode = Menu | DifficultySelect | ChoosePiece | PvP | PvC

  datatype Difficulty = Easy | Medium | Hard

  /** The menu buttons; a click is given as the set of buttons whose
      rectangle contains the pointer. */
  datatype Button = PvpButton | PvcButton | EasyButton | MediumButton | HardButton | PlayXButton | PlayOButton

  /** A piece being animated into its cell (`animating_piece`, without the
      animation progress). */
  datatype Placement = Placement(pos: Pos, player: Player)

  /** The part of the globals that neither a menu screen nor a click on the
      board changes: scores, cache, turn, outcome and roles. */
  datatype Standing = Standing(
    scores: Tally, memo: map<Board, int>, currentPlayer: Player, gameOver: bool,
    winner: Option<Player>, winInfo: Option<WinLine>, winLine: Option<WinLine>,
    humanPlayer: Player, computerPlayer: Player)

  /** The scores dictionary: wins of X, wins of O, and draws. */
  datatype Tally = Tally(x: nat, o: nat, draw: nat)

  function AddWin(t: Tally, p: Player): Tally {
    if p == X then t.(x := t.x + 1) else t.(o := t.o + 1)
  }

  function AddDraw(t: Tally): Tally {
    t.(draw := t.draw + 1)
  }

  // Grid geometry, in pixels.
  const GridXStart: int := 20
  const GridYStart: int := 120
  const GridWidth: int := 400 - 2 * GridXStart
  const CellSize: int := GridWidth / 3

  /** The pointer is strictly inside the grid's square. */
  predicate InGrid(x: int, y: int) {
    GridXStart < x < GridXStart + GridWidth && GridYStart < y < GridYStart + GridWidth
  }

  /** The cell under the pointer. The divisor is positive, so Dafny's `/`
      agrees with the floor division `//` of the game. */
  function CellAt(x: int, y: int): Pos {
    Pos((y - GridYStart) / CellSize, (x - GridXStart) / CellSize)
  }

  /** Every point strictly inside the grid falls in a cell of the board, so
      the game's own range test on the computed cell never fails there. */
  lemma GridClickInRange(x: int, y: int)
    requires InGrid(x, y)
    ensures InRange(CellAt(x, y))
  {
  }

  class Game {
    const board: array<Cell>
    var scores: Tally
    var memo: map<Board, int>
    var currentPlayer: Player
    var gameOver: bool
    var winner: Option<Player>
    var winInfo: Option<WinLine>
    var mode: Mode
    var humanPlayer: Player
    var computerPlayer: Player
    var difficulty: Difficulty
    var pending: Option<Placement>
    var winLine: Option<WinLine>

    /** The board holds nine cells; the two roles are the two players; a
        finished game has no piece in flight and a winner only when over;
        the flag `gameOver` agrees with the board; and a cell holds the
        `Placing` sentinel exactly when it is the cell of the pending
        placement. */
    ghost predicate Valid()
      reads this, board
    {
      board.Length == 9 &&
      computerPlayer == Other(humanPlayer) &&
      (gameOver ==> pending.None?) &&
      (winner.Some? ==> gameOver) &&
      OutcomeAgrees() &&
      match pending
      case None => forall i :: 0 <= i < 9 ==> board[i] != Placing
      case Some(pl) =>
        InRange(pl.pos) && forall i :: 0 <= i < 9 ==> (board[i] == Placing <==> i == Index(pl.pos))
    }

    /** A game that is not over has no line for either player and, with no
        piece in flight, an empty cell left; a game that is over never has
        lines for both players. So neither a click nor the computer is ever
        asked to move on a finished board. */
    ghost predicate OutcomeAgrees()
      reads this, board
      requires board.Length == 9
    {
      var b: Board := board[..];
      (!gameOver ==> !Wins(b, X) && !Wins(b, O)) &&
      (!gameOver && pending.None? ==> Empty in b) &&
      (gameOver ==> !(Wins(b, X) && Wins(b, O)))
    }

    /** The current scores, cache, turn, outcome and roles. */
    ghost function CurrentStanding(): Standing
      reads this
    {
      Standing(scores, memo, currentPlayer, gameOver, winner, winInfo, winLine, humanPlayer, computerPlayer)
    }

    /** The state right after a restart, apart from the board and mode. */
    ghost predicate FreshRound()
      reads this
    {
      currentPlayer == X && !gameOver && winner.None? && winInfo.None? && winLine.None?
    }

    constructor ()
      ensures Valid() && fresh(board)
      ensures board[..] == EmptyBoard && memo == map[]
      ensures scores == Tally(0, 0, 0) && FreshRound() && pending.None?
      ensures mode == Menu && humanPlayer == X && computerPlayer == O && difficulty == Medium
    {
      var cells := new Cell[9](_ => Empty);
      NoMarkNoLine(cells[..], X);
      NoMarkNoLine(cells[..], O);
      assert cells[..][0] == Empty;
      board := cells;
      scores := Tally(0, 0, 0);
      memo := map[];
      currentPlayer := X;
      gameOver := false;
      winner := None;
      winInfo := None;
      mode := Menu;
      humanPlayer := X;
      computerPlayer := O;
      difficulty := Medium;
      pending := None;
      winLine := None;
    }

    // -------------------------------------------------------------------
    // The computer opponent
    // -------------------------------------------------------------------

    /** The exhaustive search: it plays each empty cell in row-major order,
        recurses and takes the cell back, caching the value of each
        position it finishes. The board is the same afterwards, the result
        is the uncached minimax value, and the cache stays sound. */
    method Minimax(maximizing: bool, ghost parity: nat) returns (result: int)
      requires board.Length == 9
      requires MemoSound(memo, computerPlayer, humanPlayer, parity)
      requires maximizing == (EmptyCount(board[..]) % 2 == parity)
      modifies this`memo, board
      ensures board[..] == old(board[..])
      ensures MemoSound(memo, computerPlayer, humanPlayer, parity)
      ensures result == Value(old(board[..]), maximizing, computerPlayer, humanPlayer)
      decreases EmptyCount(board[..]), 2
    {
      var key: Board := board[..];
      if key in memo {
        return memo[key];
      }
      if CheckWin(key, computerPlayer).Some? {
        return 1;
      }
      if CheckWin(key, humanPlayer).Some? {
        return -1;
      }
      if CheckDraw(key) {
        return 0;
      }
      var scores := ChildScores(maximizing, parity, key);
      result := if maximizing then Max(scores) else Min(scores);
      memo := memo[key := result];
    }

    /** The loops of the search at a node that is not over: the values of
        its children, empty cell by empty cell in row-major order. */
    method ChildScores(maximizing: bool, ghost parity: nat, ghost key: Board) returns (scores: seq<int>)
      requires board.Length == 9 && board[..] == key
      requires MemoSound(memo, computerPlayer, humanPlayer, parity)
      requires maximizing == (EmptyCount(key) % 2 == parity)
      modifies this`memo, board
      ensures board[..] == key
      ensures MemoSound(memo, computerPlayer, humanPlayer, parity)
      ensures scores == Scores(key, maximizing, computerPlayer, humanPlayer, 9)
      decreases EmptyCount(key), 1
    {
      scores := [];
      // The flat index of the cell being scanned.
      ghost var n := 0;
      var r := 0;
      while r < 3
        invariant 0 <= r <= 3 && n == 3 * r
        invariant board[..] == key
        invariant MemoSound(memo, computerPlayer, humanPlayer, parity)
        invariant scores == Scores(key, maximizing, computerPlayer, humanPlayer, n)
      {
        var c := 0;
        while c < 3
          invariant 0 <= c <= 3 && n == 3 * r + c
          invariant board[..] == key
          invariant MemoSound(memo, computerPlayer, humanPlayer, parity)
          invariant scores == Scores(key, maximizing, computerPlayer, humanPlayer, n)
        {
          ScoresStep(key, maximizing, computerPlayer, humanPlayer, n + 1);
          if board[3 * r + c] == Empty {
            var s := PlayAndEvaluate(3 * r + c, maximizing, parity, key);
            scores := scores + [s];
          }
          n := n + 1;
          c := c + 1;
        }
        r := r + 1;
      }
    }

    /** The body of both search loops: the mover of the node plays the empty
        cell k, the position is searched, and the cell is emptied again. The
        result is the value of that child. */
    method PlayAndEvaluate(k: nat, maximizing: bool, ghost parity: nat, ghost b: Board) returns (score: int)
      requires board.Length == 9 && board[..] == b && k < 9 && b[k] == Empty
      requires MemoSound(memo, computerPlayer, humanPlayer, parity)
      requires maximizing == (EmptyCount(b) % 2 == parity)
      modifies this`memo, board
      ensures board[..] == b
      ensures MemoSound(memo, computerPlayer, humanPlayer, parity)
      ensures score == ChildValue(b, k, maximizing, computerPlayer, humanPlayer)
      decreases EmptyCount(b), 0
    {
      board[k] := Mark(if maximizing then computerPlayer else humanPlayer);
      assert board[..] == Child(b, k, maximizing, computerPlayer, humanPlayer);
      ChildFlipsRole(b, k, maximizing, computerPlayer, humanPlayer, parity);
      score := Minimax(!maximizing, parity);
      board[k] := Empty;
      assert board[..] == b;
    }

    /** The root search: clears the cache, scores every empty cell by the
        minimax value after the computer plays it, and keeps the first cell
        whose score is strictly above every earlier one. With no empty cell
        it falls back to the Easy/Medium picker, which finds none. */
    method MinimaxMove() returns (move: Option<Pos>)
      requires board.Length == 9
      modifies this`memo, board
      ensures board[..] == old(board[..])
      ensures MemoSound(memo, computerPlayer, humanPlayer, EmptyCount(old(board[..])) % 2)
      ensures move.None? <==> EmptyCells(old(board[..])) == []
      ensures move.Some? ==>
        InRange(move.value) && IsFirstBest(old(board[..]), computerPlayer, humanPlayer, Index(move.value))
    {
      memo := map[];
      ghost var b0: Board := board[..];
      ghost var parity := EmptyCount(b0) % 2;
      // The flat index of the cell being scanned, and the score of each
      // empty cell scanned so far.
      ghost var n := 0;
      ghost var seen: seq<int> := [0, 0, 0, 0, 0, 0, 0, 0, 0];
      // Below every minimax value, so it stands for -math.inf.
      var bestScore := -2;
      var best: Option<Pos> := None;
      RootScanStart(b0, computerPlayer, humanPlayer, seen);
      var r := 0;
      while r < 3
        invariant 0 <= r <= 3 && n == 3 * r
        invariant board[..] == b0
        invariant MemoSound(memo, computerPlayer, humanPlayer, parity)
        invariant RootScanned(b0, computerPlayer, humanPlayer, seen, n, best, bestScore)
      {
        best, bestScore, seen := ScanRootRow(r, best, bestScore, b0, parity, seen);
        n := n + 3;
        r := r + 1;
      }
      RootScanDone(b0, computerPlayer, humanPlayer, seen, best, bestScore);
      if best.Some? {
        move := best;
      } else {
        move := EasyMediumMove();
      }
    }

    /** The inner loop of the root search over row r: each empty cell of
        the row is scored by the search after the computer plays it, and
        the best so far is replaced only by a strictly greater score. */
    method ScanRootRow(r: nat, best: Option<Pos>, bestScore: int, ghost b0: Board, ghost parity: nat,
                       ghost seen: seq<int>)
      returns (best': Option<Pos>, bestScore': int, ghost seen': seq<int>)
      requires r < 3 && board.Length == 9 && board[..] == b0
      requires parity == EmptyCount(b0) % 2
      requires MemoSound(memo, computerPlayer, humanPlayer, parity)
      requires RootScanned(b0, computerPlayer, humanPlayer, seen, 3 * r, best, bestScore)
      modifies this`memo, board
      ensures board[..] == b0
      ensures MemoSound(memo, computerPlayer, humanPlayer, parity)
      ensures RootScanned(b0, computerPlayer, humanPlayer, seen', 3 * r + 3, best', bestScore')
    {
      best', bestScore', seen' := best, bestScore, seen;
      ghost var n := 3 * r;
      var c := 0;
      while c < 3
        invariant 0 <= c <= 3 && n == 3 * r + c
        invariant board[..] == b0
        invariant MemoSound(memo, computerPlayer, humanPlayer, parity)
        invariant RootScanned(b0, computerPlayer, humanPlayer, seen', n, best', bestScore')
      {
        if board[3 * r + c] == Empty {
          var score := PlayAndEvaluate(3 * r + c, true, parity, b0);
          RootScanScore(b0, computerPlayer, humanPlayer, seen', n, best', bestScore', score, Pos(r, c));
          seen' := seen'[n := score];
          if score > bestScore' {
            bestScore' := score;
            best' := Some(Pos(r, c));
          }
        } else {
          RootScanSkip(b0, computerPlayer, humanPlayer, seen', n, best', bestScore');
        }
        n := n + 1;
        c := c + 1;
      }
    }

    /** The Easy and Medium picker. With no empty cell there is no move. On
        Easy it picks any empty cell. On Medium it first looks, in
        row-major order, for a cell that wins for the computer, then for a
        cell that would win for the human, and otherwise picks any empty
        cell. Each trial placement is taken back, so the board is the same
        afterwards. */
    method EasyMediumMove() returns (move: Option<Pos>)
      requires board.Length == 9
      modifies board
      ensures board[..] == old(board[..])
      ensures move.None? <==> EmptyCells(old(board[..])) == []
      ensures move.Some? ==> move.value in EmptyCells(old(board[..]))
      ensures difficulty != Easy ==> MediumChoice(old(board[..]), computerPlayer, humanPlayer, move)
    {
      ghost var b0: Board := board[..];
      var empties := EmptyCells(board[..]);
      if empties == [] {
        FullIffNoEmptyCells(b0);
        assert !CanComplete(b0, computerPlayer);
        assert !CanComplete(b0, humanPlayer);
        return None;
      }
      if difficulty == Easy {
        assert empties[0] in empties;
        var cell :| cell in empties;
        return Some(cell);
      }
      var players := [computerPlayer, humanPlayer];
      var i := 0;
      while i < 2
        invariant 0 <= i <= 2
        invariant board[..] == b0 && players == [computerPlayer, humanPlayer]
        invariant forall i' :: 0 <= i' < i ==> !CanComplete(b0, players[i'])
      {
        var found := WinningCell(players[i], empties, b0);
        FirstCompletingScan(b0, players[i]);
        if found.Some? {
          if i == 0 {
            MediumTakesWin(b0, computerPlayer, humanPlayer, found.value);
          } else {
            assert !CanComplete(b0, players[0]);
            MediumTakesBlock(b0, computerPlayer, humanPlayer, found.value);
          }
          return found;
        }
        assert forall i' :: 0 <= i' < i + 1 ==> !CanComplete(b0, players[i']);
        i := i + 1;
      }
      assert empties[0] in empties;
      var cell :| cell in empties;
      move := Some(cell);
      assert !CanComplete(b0, players[0]) && !CanComplete(b0, players[1]);
      MediumTakesAny(b0, computerPlayer, humanPlayer, move);
    }

    /** The scan of the Medium level for one player: each empty cell in turn
        gets `p`'s mark, the game asks whether `p` now owns a line, and the
        cell is emptied again. The first cell that gives `p` a line is
        returned; with none, nothing is. */
    method WinningCell(p: Player, empties: seq<Pos>, ghost b0: Board) returns (found: Option<Pos>)
      requires board.Length == 9 && board[..] == b0 && empties == EmptyCells(b0)
      modifies board
      ensures board[..] == b0
      ensures found == FirstCompletingFrom(b0, p, empties, 0)
    {
      var j := 0;
      while j < |empties|
        invariant 0 <= j <= |empties|
        invariant board[..] == b0
        invariant FirstCompletingFrom(b0, p, empties, j) == FirstCompletingFrom(b0, p, empties, 0)
      {
        var cell := empties[j];
        var wins := TrialWins(Index(cell), p, b0);
        if wins {
          return Some(cell);
        }
        j := j + 1;
      }
      return None;
    }

    /** One trial of the Medium scan: `p` is written into the empty cell k,
        the game asks whether `p` now owns a line, and the cell is emptied
        again whatever the answer. */
    method TrialWins(k: nat, p: Player, ghost b: Board) returns (wins: bool)
      requires board.Length == 9 && board[..] == b && k < 9 && b[k] == Empty
      modifies board
      ensures board[..] == b
      ensures wins == Completes(b, p, k)
    {
      board[k] := Mark(p);
      assert board[..] == b[k := Mark(p)];
      wins := CheckWin(board[..], p).Some?;
      board[k] := Empty;
      assert board[..] == b;
    }

    /** `computer_move`: the minimax search on Hard, the Easy/Medium picker
        otherwise. */
    method ComputerMove() returns (move: Option<Pos>)
      requires board.Length == 9
      modifies this`memo, board
      ensures board[..] == old(board[..])
      ensures move.None? <==> EmptyCells(old(board[..])) == []
      ensures move.Some? ==> move.value in EmptyCells(old(board[..]))
      ensures difficulty == Hard && move.Some? ==>
        IsFirstBest(old(board[..]), computerPlayer, humanPlayer, Index(move.value))
      ensures difficulty == Medium ==> MediumChoice(old(board[..]), computerPlayer, humanPlayer, move)
      ensures difficulty != Hard ==> memo == old(memo)
    {
      if difficulty == Hard {
        move := MinimaxMove();
        if move.Some? {
          ghost var b0: Board := board[..];
          EmptyCellsListsAll(b0);
          assert b0[Index(move.value)] == Empty;
          assert move.value == PosOf(Index(move.value));
        }
      } else {
        move := EasyMediumMove();
      }
    }

    // -------------------------------------------------------------------
    // Game flow
    // -------------------------------------------------------------------

    /** `restart_game`: an empty board, X to move, nothing over and nothing
        in flight. A full reset goes back to the menu. Otherwise the mode is
        kept, and in a game against the computer where the human plays O
        the computer's first choice goes in flight at once: every cell but
        the one being placed is empty, and that choice is the one launched
        from the board with that cell empty again, i.e. the empty board. */
    method RestartGame(fullReset: bool)
      requires Valid()
      modifies this, board
      ensures Valid() && FreshRound()
      ensures scores == old(scores) && difficulty == old(difficulty)
      ensures humanPlayer == old(humanPlayer) && computerPlayer == old(computerPlayer)
      ensures fullReset ==> mode == Menu && memo == map[]
      ensures !fullReset ==> mode == old(mode)
      ensures var opening := !fullReset && old(mode) == PvC && old(humanPlayer) == O;
        (!opening ==> (forall i :: 0 <= i < 9 ==> board[i] == Empty) && pending.None?) &&
        (opening ==>
           pending.Some? &&
           (forall i :: 0 <= i < 9 && i != Index(pending.value.pos) ==> board[i] == Empty) &&
           Launched(board[..][Index(pending.value.pos) := Empty])) &&
        (!(opening && difficulty == Hard) ==> memo == map[])
    {
      ResetRound();
      if fullReset {
        mode := Menu;
      } else if mode == PvC && humanPlayer == O {
        OpenForComputer();
      }
    }

    /** The computer, playing X, opens a fresh round: its choice on the empty
        board goes in flight, and every other cell stays empty. */
    method OpenForComputer()
      requires Valid() && pending.None? && !gameOver
      requires forall i :: 0 <= i < 9 ==> board[i] == Empty
      modifies this`memo, this`pending, board
      ensures Valid() && pending.Some?
      ensures forall i :: 0 <= i < 9 && i != Index(pending.value.pos) ==> board[i] == Empty
      ensures Launched(board[..][Index(pending.value.pos) := Empty])
      ensures difficulty != Hard ==> memo == old(memo)
    {
      ghost var cleared := board[..];
      assert cleared[0] == Empty;
      LaunchComputerMove();
      assert board[..][Index(pending.value.pos) := Empty] == cleared;
    }

    /** The part of a restart common to all cases: an empty board, an empty
        cache, X to move, nothing over and nothing in flight. */
    method ResetRound()
      requires board.Length == 9 && computerPlayer == Other(humanPlayer)
      modifies this`memo, this`currentPlayer, this`gameOver, this`winner, this`winInfo,
        this`pending, this`winLine, board
      ensures Valid() && FreshRound() && pending.None? && memo == map[]
      ensures forall i :: 0 <= i < 9 ==> board[i] == Empty
    {
      memo := map[];
      currentPlayer := X;
      gameOver := false;
      winner := None;
      winInfo := None;
      pending := None;
      winLine := None;
      ClearBoard();
      NoMarkNoLine(board[..], X);
      NoMarkNoLine(board[..], O);
      assert board[..][0] == Empty;
    }

    /** Every cell of the board becomes empty. */
    method ClearBoard()
      requires board.Length == 9
      modifies board
      ensures forall i :: 0 <= i < 9 ==> board[i] == Empty
    {
      forall i | 0 <= i < 9 {
        board[i] := Empty;
      }
    }

    /** One mouse click: the screen the game is on picks the single handler
        that gets it, the main menu, the difficulty screen, the piece screen,
        or else the board; so a click that changes the screen is not also
        taken as a move. */
    method Click(x: int, y: int, hits: set<Button>)
      requires Valid()
      modifies this, board
      ensures Valid()
      ensures old(mode) == Menu ==>
        CurrentStanding() == old(CurrentStanding()) && difficulty == old(difficulty) &&
        board[..] == old(board[..]) && pending == old(pending) &&
        mode == (if PvpButton in hits then PvP else if PvcButton in hits then DifficultySelect else Menu)
      ensures old(mode) == DifficultySelect ==>
        CurrentStanding() == old(CurrentStanding()) &&
        board[..] == old(board[..]) && pending == old(pending) &&
        var chosen :=
          if EasyButton in hits then Some(Easy)
          else if MediumButton in hits then Some(Medium)
          else if HardButton in hits then Some(Hard)
          else None;
        (chosen.Some? ==> difficulty == chosen.value && mode == ChoosePiece) &&
        (chosen.None? ==> difficulty == old(difficulty) && mode == DifficultySelect)
      ensures old(mode) == ChoosePiece ==>
        difficulty == old(difficulty) &&
        var chosen :=
          if PlayXButton in hits then Some(X) else if PlayOButton in hits then Some(O) else None;
        (chosen.Some? ==>
           humanPlayer == chosen.value && computerPlayer == Other(chosen.value) && mode == PvC &&
           FreshRound() && scores == old(scores) &&
           (chosen.value == X ==> (forall i :: 0 <= i < 9 ==> board[i] == Empty) && pending.None?) &&
           (chosen.value == O ==>
              pending.Some? && pending.value.player == X && InRange(pending.value.pos) &&
              board[Index(pending.value.pos)] == Placing &&
              (forall i :: 0 <= i < 9 && i != Index(pending.value.pos) ==> board[i] == Empty))) &&
        (chosen.None? ==>
           mode == ChoosePiece && CurrentStanding() == old(CurrentStanding()) &&
           board[..] == old(board[..]) && pending == old(pending))
      ensures old(mode) == PvP || old(mode) == PvC ==>
        mode == old(mode) && difficulty == old(difficulty) &&
        CurrentStanding() == old(CurrentStanding()) &&
        (old(AcceptsClick(x, y)) ==>
           board[..] == old(board[..])[Index(CellAt(x, y)) := Placing] &&
           pending == Some(Placement(CellAt(x, y), old(currentPlayer)))) &&
        (!old(AcceptsClick(x, y)) ==> board[..] == old(board[..]) && pending == old(pending))
    {
      if mode == Menu {
        ChooseMode(hits);
      } else if mode == DifficultySelect {
        ChooseDifficulty(hits);
      } else if mode == ChoosePiece {
        ChoosePieceSide(hits);
      } else {
        HumanClick(x, y);
      }
    }

    /** The main menu: the player-vs-player button starts a two-player game
        at once, the player-vs-computer button leads to the difficulty
        screen; the first button hit decides. Nothing else changes. */
    method ChooseMode(hits: set<Button>)
      requires Valid()
      modifies this`mode
      ensures Valid()
      ensures old(mode) == Menu && PvpButton in hits ==> mode == PvP
      ensures old(mode) == Menu && PvpButton !in hits && PvcButton in hits ==> mode == DifficultySelect
      ensures old(mode) != Menu || (PvpButton !in hits && PvcButton !in hits) ==> mode == old(mode)
    {
      if mode == Menu {
        if PvpButton in hits {
          mode := PvP;
        } else if PvcButton in hits {
          mode := DifficultySelect;
        }
      }
    }

    /** The difficulty screen: the first difficulty button hit is recorded
        and leads to the piece screen. */
    method ChooseDifficulty(hits: set<Button>)
      requires Valid()
      modifies this`mode, this`difficulty
      ensures Valid()
      ensures var chosen :=
          if EasyButton in hits then Some(Easy)
          else if MediumButton in hits then Some(Medium)
          else if HardButton in hits then Some(Hard)
          else None;
        if old(mode) == DifficultySelect && chosen.Some? then
          difficulty == chosen.value && mode == ChoosePiece
        else
          difficulty == old(difficulty) && mode == old(mode)
    {
      if mode == DifficultySelect {
        if EasyButton in hits {
          difficulty, mode := Easy, ChoosePiece;
        } else if MediumButton in hits {
          difficulty, mode := Medium, ChoosePiece;
        } else if HardButton in hits {
          difficulty, mode := Hard, ChoosePiece;
        }
      }
    }

    /** The piece screen: choosing X or O fixes the roles and starts a game
        against the computer through a restart that keeps the mode. */
    method ChoosePieceSide(hits: set<Button>)
      requires Valid()
      modifies this, board
      ensures Valid()
      ensures var chosen :=
          if PlayXButton in hits then Some(X) else if PlayOButton in hits then Some(O) else None;
        if old(mode) == ChoosePiece && chosen.Some? then
          humanPlayer == chosen.value && computerPlayer == Other(chosen.value) && mode == PvC &&
          FreshRound() && scores == old(scores) && difficulty == old(difficulty) &&
          (chosen.value == X ==> (forall i :: 0 <= i < 9 ==> board[i] == Empty) && pending.None?) &&
          (chosen.value == O ==>
             pending.Some? && pending.value.player == X && InRange(pending.value.pos) &&
             board[Index(pending.value.pos)] == Placing &&
             (forall i :: 0 <= i < 9 && i != Index(pending.value.pos) ==> board[i] == Empty))
        else
          unchanged(this) && board[..] == old(board[..])
    {
      if mode == ChoosePiece {
        if PlayXButton in hits {
          humanPlayer, computerPlayer, mode := X, O, PvC;
        } else if PlayOButton in hits {
          humanPlayer, computerPlayer, mode := O, X, PvC;
        }
        if mode == PvC {
          RestartGame(false);
        }
      }
    }

    /** A human click on the board is accepted in a game, when it is not
        over, no piece is in flight, and it is the human's turn (always so
        in a two-player game), and the pointer is on an empty cell. */
    ghost predicate AcceptsClick(x: int, y: int)
      reads this, board
      requires Valid()
    {
      (mode == PvP || mode == PvC) && !gameOver && pending.None? &&
      (mode == PvP || currentPlayer == humanPlayer) &&
      InGrid(x, y) && InRange(CellAt(x, y)) && board[Index(CellAt(x, y))] == Empty
    }

    /** A click at pixel (x, y): when accepted, exactly that cell becomes
        `Placing` and the player to move has a piece in flight there;
        otherwise nothing changes. */
    method HumanClick(x: int, y: int)
      requires Valid()
      modifies this`pending, board
      ensures Valid()
      ensures old(AcceptsClick(x, y)) ==>
        board[..] == old(board[..])[Index(CellAt(x, y)) := Placing] &&
        pending == Some(Placement(CellAt(x, y), currentPlayer))
      ensures !old(AcceptsClick(x, y)) ==> board[..] == old(board[..]) && pending == old(pending)
    {
      if (mode == PvP || mode == PvC) && !gameOver && pending.None? &&
         (mode == PvP || currentPlayer == humanPlayer)
      {
        if InGrid(x, y) {
          var cell := CellAt(x, y);
          if InRange(cell) && board[Index(cell)] == Empty {
            PutInFlight(cell, currentPlayer);
          }
        }
      }
    }

    /** The end of a placement: the piece is written into its cell and the
        game checks for a win by its player, then for a full board, and
        otherwise passes the turn. Exactly one of the three happens; only
        the counter of that outcome goes up; nothing is in flight after. */
    method FinishPlacement()
      requires Valid()
      modifies this`currentPlayer, this`gameOver, this`winner, this`winInfo, this`scores,
        this`pending, this`winLine, board
      ensures Valid()
      ensures old(pending).None? ==> unchanged(this) && board[..] == old(board[..])
      ensures old(pending).Some? ==>
        var pl := old(pending).value;
        var after := old(board[..])[Index(pl.pos) := Mark(pl.player)];
        board[..] == after && pending.None? && winInfo == CheckWin(after, pl.player) &&
        (Wins(after, pl.player) ==>
           winner == Some(pl.player) && gameOver && scores == AddWin(old(scores), pl.player) &&
           winLine == winInfo && currentPlayer == old(currentPlayer)) &&
        (!Wins(after, pl.player) && CheckDraw(after) ==>
           gameOver && scores == AddDraw(old(scores)) && winner == old(winner) &&
           winLine == old(winLine) && currentPlayer == old(currentPlayer)) &&
        (!Wins(after, pl.player) && !CheckDraw(after) ==>
           !gameOver && scores == old(scores) && winner == old(winner) &&
           winLine == old(winLine) && currentPlayer == Other(old(currentPlayer)))
    {
      if pending.Some? {
        var pl := pending.value;
        ghost var b0: Board := board[..];
        board[Index(pl.pos)] := Mark(pl.player);
        NoNewLine(b0, Index(pl.pos), Mark(pl.player), Other(pl.player));
        pending := None;
        JudgeMove(pl.player);
      }
    }

    /** The checks after a piece of `p` lands, on the board as it now is:
        a win by `p` ends the game with `p` as winner and its line recorded,
        otherwise a full board ends it as a draw, otherwise the turn passes.
        Only the counter of the outcome goes up. */
    method JudgeMove(p: Player)
      requires Landed(p)
      modifies this`currentPlayer, this`gameOver, this`winner, this`winInfo, this`scores, this`winLine
      ensures Valid()
      ensures var b := board[..];
        winInfo == CheckWin(b, p) &&
        (Wins(b, p) ==>
           winner == Some(p) && gameOver && scores == AddWin(old(scores), p) &&
           winLine == winInfo && currentPlayer == old(currentPlayer)) &&
        (!Wins(b, p) && CheckDraw(b) ==>
           gameOver && scores == AddDraw(old(scores)) && winner == old(winner) &&
           winLine == old(winLine) && currentPlayer == old(currentPlayer)) &&
        (!Wins(b, p) && !CheckDraw(b) ==>
           !gameOver && scores == old(scores) && winner == old(winner) &&
           winLine == old(winLine) && currentPlayer == Other(old(currentPlayer)))
    {
      var b: Board := board[..];
      winInfo := CheckWin(b, p);
      if winInfo.Some? {
        winner, gameOver := Some(p), true;
        scores := AddWin(scores, p);
        winLine := winInfo;
      } else if CheckDraw(b) {
        gameOver := true;
        scores := AddDraw(scores);
      } else {
        currentPlayer := Other(currentPlayer);
      }
    }

    /** A piece of `p` has just landed in a game that was running: nothing
        is in flight or over, no cell is `Placing`, and the other player
        still has no line (a piece of `p` cannot give it one). */
    ghost predicate Landed(p: Player)
      reads this, board
    {
      board.Length == 9 && computerPlayer == Other(humanPlayer) &&
      !gameOver && winner.None? && pending.None? &&
      (forall i :: 0 <= i < 9 ==> board[i] != Placing) &&
      !Wins(board[..], Other(p))
    }

    /** It is the computer's turn to choose a move. */
    ghost predicate ComputerDue()
      reads this
    {
      mode == PvC && currentPlayer == computerPlayer && !gameOver && pending.None?
    }

    /** The computer's turn: when it is due, the computer's move goes in
        flight; otherwise nothing changes. */
    method ComputerTurn()
      requires Valid()
      modifies this`memo, this`pending, board
      ensures Valid()
      ensures !old(ComputerDue()) ==>
        board[..] == old(board[..]) && pending == old(pending) && memo == old(memo)
      ensures old(ComputerDue()) ==> Launched(old(board[..]))
      ensures old(ComputerDue()) ==> pending.Some? && pending.value.player == computerPlayer
    {
      if mode == PvC && currentPlayer == computerPlayer && !gameOver && pending.None? {
        LaunchComputerMove();
      }
    }

    /** What launching the computer's move leaves behind, from the board
        `b` it started on: with no empty cell nothing is in flight and the
        board is unchanged (a case `Valid` rules out whenever the computer
        is asked to move); otherwise the chosen empty cell holds `Placing`,
        the computer's piece is pending there, and the choice is the first
        best cell on Hard and the tactical choice on Medium. */
    ghost predicate Launched(b: Board)
      reads this, board
    {
      (CheckDraw(b) ==> board[..] == b && pending.None?) &&
      (!CheckDraw(b) ==>
         pending.Some? && pending.value.player == computerPlayer &&
         InRange(pending.value.pos) && b[Index(pending.value.pos)] == Empty &&
         board[..] == b[Index(pending.value.pos) := Placing] &&
         (difficulty == Hard ==> IsFirstBest(b, computerPlayer, humanPlayer, Index(pending.value.pos))) &&
         (difficulty == Medium ==> MediumChoice(b, computerPlayer, humanPlayer, Some(pending.value.pos))))
    }

    /** The computer chooses a cell and its piece goes in flight there. */
    method LaunchComputerMove()
      requires Valid() && pending.None? && !gameOver
      modifies this`memo, this`pending, board
      ensures Valid() && Launched(old(board[..]))
      ensures difficulty != Hard ==> memo == old(memo)
    {
      ghost var b0: Board := board[..];
      FullIffNoEmptyCells(b0);
      var move := ComputerMove();
      if move.Some? {
        PutInFlight(move.value, computerPlayer);
      }
    }

    /** A piece of `p` starts its placement animation at the empty cell
        `pos`: the cell holds `Placing` and the placement is pending. */
    method PutInFlight(pos: Pos, p: Player)
      requires Valid() && pending.None? && !gameOver
      requires InRange(pos) && board[Index(pos)] == Empty
      modifies board, this`pending
      ensures Valid()
      ensures board[..] == old(board[..])[Index(pos) := Placing]
      ensures pending == Some(Placement(pos, p))
    {
      ghost var b0: Board := board[..];
      board[Index(pos)] := Placing;
      NoNewLine(b0, Index(pos), Placing, X);
      NoNewLine(b0, Index(pos), Placing, O);
      pending := Some(Placement(pos, p));
    }
  }
}

=== FILE: wrappers.dfy ===
/** Optional values: Python's `None` next to a real value. */
module Wrappers {

  datatype Option<+T> = None | Some(value: T)
}
